=== FILE: README.md ===
# Volkswagen WeConnect integration: decision rules

A functional model of the decision rules in the Home Assistant integration
`custom_components/volkswagencarnet/__init__.py`. The integration polls a
vehicle through an external telematics client and exposes its readings
("instruments") as entities. The model covers the local logic around that:

- **Vehicle selection.** The coordinator picks the configured vehicle from the
  fetched list by case-insensitive VIN match.
- **Report-request gating.** The coordinator decides when to ask the car for a
  fresh report, and when the last-report timestamp moves.
- **Unit-conversion precedence.** The `convert` setting is read from `options`,
  then `data`. Without it, the legacy Scandinavian-miles flag decides.
- **Refresh.** One refresh cycle selects the vehicle, gates the report request
  and resolves the dashboard settings.
- **Setup.** Entry setup chooses the refresh interval, builds the coordinator,
  logs in and runs the first refresh. It then registers the enabled
  instruments and collects their platforms.
- **Unload.** The entry is dropped exactly when every platform unloaded.
- **Data holder.** `VolkswagenData` looks up an instrument by its
  (VIN, component, attribute) triple and applies the vehicle naming policy.
- **Entity façade.** `VolkswagenEntity` derives its unique id, name,
  availability, icon, attributes and device info from the bound triple.
- **Service schemas.** The four command-service schemas.

Modules: `Common` (option, result, Python exceptions, first-match search),
`Text` (ASCII case mapping), `Values` (dynamically typed configuration values
with Python truthiness and `==`), `Records` (vehicle, instrument, config entry,
coordinator state, key names), `Config`, `VolkswagenCoordinator`,
`DataHolder`, `Entity`, `Setup` and `Services`.

Inputs stand in for I/O. The external client's answers are parameters:
- the fetched vehicle list, `None` when the client's update fails;
- the outcome of each login or report call: succeeded, failed or raised;
- the instruments the dashboard builder returns.

The clock becomes the whole days elapsed since the last report and the
instant a report succeeds. Python exceptions that escape an operation are
`Result.Raise` values.

Report gating counts "never requested" as one elapsed day and skips while
`days < interval`. With an interval above one day the first request is
therefore skipped, the timestamp never gets set, and no request is ever made
(`VolkswagenCoordinator.NoReportEverAboveOneDay`).

`const.py` is not part of this model. The configuration keys and
conversion-mode names use their literal values (`"convert"`,
`"scandinavian_miles"`, ...); the proofs rely only on them being distinct.
`COMPONENTS` and the default intervals are parameters.

## Model

| member | source | states |
|---|---|---|
| Config.LegacyConvertConf | custom_components/volkswagencarnet/__init__.py:247-252 | The legacy mode is Scandinavian miles or no conversion. The flag in `options` decides when present, else the flag in `data`, else no conversion. |
| Config.ConvertConf | custom_components/volkswagencarnet/__init__.py:445-448 | An explicit `convert` in `options` wins, then one in `data`, then the legacy mode. |
| Config.UnitsFor | custom_components/volkswagencarnet/__init__.py:450-455 | `miles` holds iff the mode is imperial units and `scandinavian_miles` iff it is Scandinavian miles; never both. |
| Config.ConversionPrecedence | custom_components/volkswagencarnet/__init__.py:446-454 | The unit flags are exactly those of the `convert` mode in `options` when present, else of the one in `data`. Without either, there are no miles, and Scandinavian miles follow the legacy flag (`options`, then `data`, default false). |
| Config.OptionsModeIgnoresData | custom_components/volkswagencarnet/__init__.py:448 | With `convert` in `options`, changing `data` does not change the mode. |
| Config.ExplicitModeIgnoresLegacyFlag | custom_components/volkswagencarnet/__init__.py:446-448 | With `convert` set anywhere, the legacy flag does not change the mode. |
| Config.UpdateIntervalMinutes | custom_components/volkswagencarnet/__init__.py:151-154 | A falsy or absent scan interval gives the default. A non-zero integer is used as given, and `True` gives one minute. A truthy value that is not a number raises `TypeError`. An interval whose whole days exceed 999,999,999 in magnitude raises `OverflowError`, as the default does too. A non-zero default never yields zero. |
| Config.ReportInterval | custom_components/volkswagencarnet/__init__.py:501-508 | The interval comes from `options`, else the default. A boolean compares as 1 or 0. Any other value that cannot be compared with an integer raises `TypeError`. |
| VolkswagenCoordinator.NewCoordinator | custom_components/volkswagencarnet/__init__.py:418-429 | The keys are read in source order: a missing vehicle key raises `KeyError`, a non-string VIN raises `AttributeError`, then a missing username, password or region raises `KeyError` for the first one missing. The region in `data` is required even when `options` overrides it. The stored VIN is the upper-cased configured one, with no session and no report timestamp. |
| VolkswagenCoordinator.Login | custom_components/volkswagencarnet/__init__.py:471-482 | An existing session returns true untouched. Otherwise the client's login decides the flag and the session, and its exception escapes. |
| VolkswagenCoordinator.SelectVehicle | custom_components/volkswagencarnet/__init__.py:484-497 | The result is the first fetched vehicle whose upper-cased VIN equals the configured one. It is none when the fetch failed or no vehicle matches. |
| VolkswagenCoordinator.SelectionIgnoresCase | custom_components/volkswagencarnet/__init__.py:494 | A configured VIN in any case finds a listed vehicle whose VIN differs from it only in case. |
| VolkswagenCoordinator.ReportRequest | custom_components/volkswagencarnet/__init__.py:499-529 | The request is skipped iff the days since the last report are fewer than the interval; "never" counts as one day. It is made iff not skipped, a session exists or the login succeeds, and the report call succeeds. The timestamp moves to the clock only then. Failures and exceptions leave it unchanged. |
| VolkswagenCoordinator.NoReportEverAboveOneDay | custom_components/volkswagencarnet/__init__.py:503-509 | Take a coordinator that never requested a report and an interval above one day. After any sequence of calls, the timestamp is still unset. |
| VolkswagenCoordinator.SecondRequestWithinIntervalSkipped | custom_components/volkswagencarnet/__init__.py:503-526 | After a successful request, a call fewer days later than the interval is skipped. |
| VolkswagenCoordinator.UpdateData | custom_components/volkswagencarnet/__init__.py:433-457 | No selected vehicle fails the cycle with the state unchanged. With a selected vehicle, the cycle yields that vehicle and the dashboard arguments: the `mutable` and `spin` settings and the resolved unit flags. The exception is an enabled report request whose interval cannot be read; it raises and leaves the state unchanged. Only an enabled report request can change the state. |
| VolkswagenCoordinator.Refresh | custom_components/volkswagencarnet/__init__.py:433-441 | The cycle succeeds iff the vehicle was fetched. Success replaces the snapshot with the built instruments; failure keeps the old snapshot and clears the success flag. Everything else, session and report timestamp included, is the state the cycle left. |
| DataHolder.PolicyOf | custom_components/volkswagencarnet/__init__.py:263 | A string setting is one name for all vehicles. A map of strings is a per-VIN map with the same keys and names. |
| DataHolder.NewData | custom_components/volkswagencarnet/__init__.py:258-264 | Settings come from the `volkswagencarnet` sub-map when present, else from the config itself. A non-map there raises. The holder starts with no static instruments and the given coordinator. |
| DataHolder.FindInstrument | custom_components/volkswagencarnet/__init__.py:266-275 | The result, if any, has exactly the requested VIN, component and attribute. It is the first such instrument of the coordinator snapshot, or of the static set when there is no coordinator. It is none iff nothing matches. It never raises. |
| DataHolder.LookupIgnoresStaticSetWithCoordinator | custom_components/volkswagencarnet/__init__.py:271 | With a coordinator present, the static set does not affect the lookup. |
| DataHolder.VehicleName | custom_components/volkswagencarnet/__init__.py:277-287 | A fixed name is returned for every vehicle. With a map, a non-empty VIN whose lower-cased form is a key gets that name, any other non-empty VIN gets itself, and an empty VIN gets "". An unusable policy raises iff the VIN is non-empty. |
| DataHolder.VehicleNameIgnoresVinCase | custom_components/volkswagencarnet/__init__.py:282-283 | Vehicles whose VINs differ only in case get the same mapped name. |
| DataHolder.VehicleNameExamples | custom_components/volkswagencarnet/__init__.py:277-287 | `{"vin123": "My Car"}` names vehicle `VIN123` "My Car"; the fixed policy "Fleet Car" names it "Fleet Car". |
| Entity.UniqueId | custom_components/volkswagencarnet/__init__.py:409-412 | The id is the VIN, '-', the component, '-', the attribute, in that layout. |
| Entity.UniqueIdStableAcrossRefresh | custom_components/volkswagencarnet/__init__.py:409-412 | Replacing the data holder and its instruments does not change the unique id. |
| Entity.EntityReadsLatestSnapshot | custom_components/volkswagencarnet/__init__.py:334-339 | After the coordinator snapshot is replaced, the entity's instrument comes from the new snapshot. It is missing iff the new snapshot has no instrument with the bound triple. |
| Entity.Name | custom_components/volkswagencarnet/__init__.py:349-365 | A missing instrument raises `AttributeError`. Otherwise the name is the vehicle's display name, a space, then the instrument name, and it raises iff the naming raises. |
| Entity.Available | custom_components/volkswagencarnet/__init__.py:402-407 | The entity is available iff the coordinator's last refresh succeeded; it is always available without a coordinator. |
| Entity.AvailabilityTracksLastRefresh | custom_components/volkswagencarnet/__init__.py:402-407 | After a refresh cycle, an entity is available iff the configured vehicle was in the fetched list and, with report requests enabled, the report interval could be read. |
| Entity.ExtraStateAttributes | custom_components/volkswagencarnet/__init__.py:377-389 | The result is the instrument's attributes with `model` = "model/model_year". `image_url` holds the model image iff supported. All other keys are unchanged, and nothing else is added. A missing instrument raises `AttributeError`. |
| Entity.Icon | custom_components/volkswagencarnet/__init__.py:341-347 | The battery-level and charging attributes use the battery icon with the state and the vehicle's charging flag. Every other attribute uses the instrument's icon. A missing instrument raises `AttributeError`. |
| Entity.Device | custom_components/volkswagencarnet/__init__.py:391-400 | The device is identified by the bound VIN and named with the vehicle name. The manufacturer is fixed, and the vehicle gives the model and version. A missing instrument raises `AttributeError`. |
| Setup.IsEnabled | custom_components/volkswagencarnet/__init__.py:175-177 | Without a resource list every attribute is enabled. A list or map enables exactly its members, and a string enables exactly its substrings. A value that does not support `in` raises. |
| Setup.Register | custom_components/volkswagencarnet/__init__.py:179-186 | An instrument is registered iff its component is known and its slug attribute is enabled. The platforms are exactly the images of the registered components. It raises iff the resources are untestable and some instrument has a known component. |
| Setup.SetupEntry | custom_components/volkswagencarnet/__init__.py:151-200 | An unreadable scan interval, a bad coordinator configuration or a raising login raise that error. A failed login requests re-authentication. After a successful login, a failed first refresh is "not ready". Otherwise an unusable holder configuration or untestable resources raise, and in every other case the entry is ready. When ready, the coordinator is exactly the one the first refresh left, VIN and report timestamp included, with only its platforms extended. The holder takes its name policy from the configuration. The holder holds exactly the enabled instruments, and the platforms are their images. |
| Setup.SetupLeavesReportUnset | custom_components/volkswagencarnet/__init__.py:156-168 | With a report interval above one day, or reports disabled, the coordinator a ready setup returns has no report timestamp. |
| Setup.UnloadCoordinator | custom_components/volkswagencarnet/__init__.py:224-239 | The result is true iff every known platform the coordinator set up unloaded, vacuously true for none. The entry is dropped exactly then. A missing entry raises `KeyError`. |
| Services.TimerBasicSettingsSchemaMeaning | custom_components/volkswagencarnet/__init__.py:62-70 | All fields are optional. The device id has 32 characters, the level is a multiple of 10 in 0..100, and temperatures are strings or non-negative integers. |
| Services.ChargerMaxCurrentSchemaMeaning | custom_components/volkswagencarnet/__init__.py:72-78 | Both fields are optional. The current is 0, 5, 10, 13, 16 or 32, as a number or a string, or "max". |
| Services.UpdateScheduleSchemaMeaning | custom_components/volkswagencarnet/__init__.py:80-92 | Device id and timer id in {1,2,3} are required. The profile is any non-negative integer, the frequency is cyclic or single, and the weekday mask has 7 characters. |
| Services.UpdateProfileSchemaMeaning | custom_components/volkswagencarnet/__init__.py:94-108 | Device id, a non-negative integer profile id and a name are required. The target level is a multiple of 10 in 0..100, and the current is one of the listed values without "max". |
| Services.ProfileChargeFieldsMeaning | custom_components/volkswagencarnet/__init__.py:101-106 | The optional charge fields of the profile schema accept exactly the listed levels, currents, flags and strings. |
| Services.ScheduleTimeFieldsMeaning | custom_components/volkswagencarnet/__init__.py:86-89 | The optional timing fields of the schedule schema accept exactly "cyclic" or "single", any strings, and a 7-character weekday mask. |
| Services.MissingRequiredFieldRejected | custom_components/volkswagencarnet/__init__.py:82-83 | A call missing a required field is rejected and that field is reported. |
| Services.ExtraKeysIgnored | custom_components/volkswagencarnet/__init__.py:69 | Adding a key the schema does not declare changes no violation. |
| Services.MaxOnlyForChargerCurrent | custom_components/volkswagencarnet/__init__.py:75 | "max" is a valid charger current but makes an otherwise valid profile call invalid. |
| Services.ValidSplit | custom_components/volkswagencarnet/__init__.py:80-108 | A schema split in two parts accepts a call iff both parts do. |
| Services.ProfileNumberChecks | custom_components/volkswagencarnet/__init__.py:84 | `vol.Range(min_included=1, max_included=10)` sets no bound, so the written check accepts exactly the non-negative integers. The intended check accepts exactly 1..10. |
| Services.ChargingProfileUnbounded | custom_components/volkswagencarnet/__init__.py:84 | The schedule schema as written accepts every non-negative charging profile, 11 included. |
| Services.ProfileIdUnbounded | custom_components/volkswagencarnet/__init__.py:97 | The profile schema as written accepts every non-negative profile id, 11 included. |
| Services.IntendedChargingProfileBounded | custom_components/volkswagencarnet/__init__.py:84 | With the bound set, the schedule schema accepts exactly the calls the written one does whose charging profile, if given, is in 1..10. It rejects 11. |
| Services.IntendedProfileIdBounded | custom_components/volkswagencarnet/__init__.py:97 | With the bound set, the profile schema accepts exactly the calls the written one does whose profile id is in 1..10. It rejects 11. |

## Findings

| source | as written | input that shows it | evidently intended | confidence | as-written member | corrected member |
|---|---|---|---|---|---|---|
| custom_components/volkswagencarnet/__init__.py:84 | `vol.Range(min_included=1, max_included=10)` passes 1 and 10 as the inclusivity flags, so the charging profile has no bound | a schedule call with `charging_profile` 11 (or 0) is accepted | `vol.Range(min=1, max=10)`: a profile number from 1 to 10 | medium, not executed | Services.ChargingProfileUnbounded | Services.IntendedChargingProfileBounded |
| custom_components/volkswagencarnet/__init__.py:97 | the same `vol.Range` call leaves the profile id unbounded | a profile call with `profile_id` 11 (or 0) is accepted | `vol.Range(min=1, max=10)`: a profile id from 1 to 10 | medium, not executed | Services.ProfileIdUnbounded | Services.IntendedProfileIdBounded |

The schemas in `Services` follow the code as written. `IntendedUpdateScheduleSchema` and
`IntendedUpdateProfileSchema` are the corrected schemas.

## Left out

- Service registration and removal, the update listener and reload, the stop-event hook, the dispatcher and coordinator listener subscriptions, the `hass.data` bookkeeping beyond the unload registry, and the re-authentication flow: framework calls with no local logic.
- `async_logout`, the client's `update`, `doLogin` retries and `request_report`: network calls into the external client, present only as their outcomes.
- The dashboard builder and unit rendering, which live in the external client library; the model stops at the arguments passed to it.
- `icon_for_battery_level`: a host helper; the model only says which attributes route to it.
- `async_update`, `async_added_to_hass`, the constructor's callback wiring, `should_poll` and `assumed_state`: framework hooks and constants with no decision logic.
- `DataUpdateCoordinator`'s single-flight refresh and `asyncio.gather`'s concurrency; only the "all unloads succeeded" rule is kept.
- Clocks: elapsed days and the report instant are inputs.
- Text.Upper, Text.Lower: map ASCII letters only, while Python's case mapping covers all of Unicode; VINs are ASCII.
- Services.Accepts: does not model the `cv.string`, `cv.positive_int` and `cv.boolean` coercions. A string field accepts only strings, an integer field only integers, and a boolean field only booleans.
- DataHolder.PolicyOf: a name setting that is a list, or a map with non-string names, is treated as unusable. Python would instead test membership in the list, or return the non-string name.
- Floating-point configuration values are not modelled.

=== FILE: common.dfy ===
/** Shared vocabulary: Python's `None`-or-value, the exceptions the integration
    lets escape, and the "first element satisfying a test" search that both the
    vehicle selection and the instrument lookup perform. */
module Common {

  datatype Option<+T> = None | Some(value: T)

  /** The Python exceptions a modelled operation can raise. `ExternalError`
      stands for whatever the external vehicle client raises. */
  datatype PyError =
    | KeyError(key: string)
    | TypeError(context: string)
    | AttributeError(context: string)
    | OverflowError(context: string)
    | ExternalError

  /** A value, or the exception raised instead of returning one. */
  datatype Result<+T> = Ok(value: T) | Raise(error: PyError)

  /** The index of the first element of `xs` satisfying `p`, as Python's
      `next((x for x in xs if p(x)), None)` finds it. */
  function FirstIndex<T>(xs: seq<T>, p: T -> bool): (r: Option<nat>)
    ensures r.Some? ==> r.value < |xs| && p(xs[r.value])
    ensures r.Some? ==> forall j :: 0 <= j < r.value ==> !p(xs[j])
    ensures r.None? <==> forall j :: 0 <= j < |xs| ==> !p(xs[j])
  {
    if xs == [] then None
    else if p(xs[0]) then Some(0)
    else match FirstIndex(xs[1..], p)
      case None => None
      case Some(i) => Some(i + 1)
  }
}

=== FILE: config.dfy ===
/** Settings resolved from a config entry: the unit-conversion mode, the
    refresh interval and the report-request settings. Wherever both maps are
    consulted, `options` takes precedence over `data`. */
module Config {
  import opened Common
  import opened Values
  import opened Records

  /** `get_convert_conf`: the mode implied by the legacy Scandinavian-miles
      flag alone, read from `options`, else `data`, else false. */
  function LegacyConvertConf(entry: ConfigEntry): (r: string)
    ensures r == ScandinavianMiles || r == NoConversion
    ensures ScandinavianMilesKey in entry.options ==>
      (r == ScandinavianMiles <==> Truthy(entry.options[ScandinavianMilesKey]))
    ensures ScandinavianMilesKey !in entry.options && ScandinavianMilesKey in entry.data ==>
      (r == ScandinavianMiles <==> Truthy(entry.data[ScandinavianMilesKey]))
    ensures ScandinavianMilesKey !in entry.options && ScandinavianMilesKey !in entry.data ==>
      r == NoConversion
  {
    var flag := Get(entry.options, ScandinavianMilesKey,
                    Get(entry.data, ScandinavianMilesKey, VBool(false)));
    if Truthy(flag) then ScandinavianMiles else NoConversion
  }

  /** The conversion mode of a refresh cycle: an explicit `convert` setting
      (options first, then data) wins over the legacy flag. */
  function ConvertConf(entry: ConfigEntry): (r: Value)
    ensures ConvertKey in entry.options ==> r == entry.options[ConvertKey]
    ensures ConvertKey !in entry.options && ConvertKey in entry.data ==> r == entry.data[ConvertKey]
    ensures ConvertKey !in entry.options && ConvertKey !in entry.data ==>
      r == VStr(LegacyConvertConf(entry))
  {
    Get(entry.options, ConvertKey, Get(entry.data, ConvertKey, VStr(LegacyConvertConf(entry))))
  }

  /** The two unit flags handed to the dashboard builder. */
  datatype Units = Units(miles: bool, scandinavianMiles: bool)

  function UnitsFor(mode: Value): (r: Units)
    ensures r.miles <==> mode == VStr(ImperialUnits)
    ensures r.scandinavianMiles <==> mode == VStr(ScandinavianMiles)
    ensures !(r.miles && r.scandinavianMiles)
  {
    Units(mode == VStr(ImperialUnits), mode == VStr(ScandinavianMiles))
  }

  /** The whole precedence chain, from the entry to the unit flags: explicit
      mode, else the legacy flag, else no conversion. */
  lemma ConversionPrecedence(entry: ConfigEntry)
    ensures var u := UnitsFor(ConvertConf(entry));
      && (ConvertKey in entry.options ==>
            u == Units(entry.options[ConvertKey] == VStr(ImperialUnits),
                       entry.options[ConvertKey] == VStr(ScandinavianMiles)))
      && (ConvertKey !in entry.options && ConvertKey in entry.data ==>
            u == Units(entry.data[ConvertKey] == VStr(ImperialUnits),
                       entry.data[ConvertKey] == VStr(ScandinavianMiles)))
      && (ConvertKey !in entry.options && ConvertKey !in entry.data ==>
            u == Units(false, Truthy(Get(entry.options, ScandinavianMilesKey,
                                         Get(entry.data, ScandinavianMilesKey, VBool(false))))))
  {
  }

  /** An explicit mode in `options` makes `data` irrelevant. */
  lemma OptionsModeIgnoresData(entry: ConfigEntry, otherData: map<string, Value>)
    requires ConvertKey in entry.options
    ensures ConvertConf(entry.(data := otherData)) == ConvertConf(entry)
  {
  }

  /** An explicit mode anywhere makes the legacy flag irrelevant. */
  lemma ExplicitModeIgnoresLegacyFlag(entry: ConfigEntry, flag: Value)
    requires ConvertKey in entry.options || ConvertKey in entry.data
    ensures ConvertConf(entry.(options := entry.options[ScandinavianMilesKey := flag])) ==
            ConvertConf(entry)
  {
  }

  /** The largest magnitude, in days, that a `timedelta` can hold. */
  const MaxTimedeltaDays := 999_999_999
  const MinutesPerDay := 1440

  /** Whether `timedelta(minutes=n)` fits: the whole days of `n` minutes,
      rounded down as `timedelta` normalises them, are within the limit. */
  predicate TimedeltaMinutesFit(n: int) {
    -MaxTimedeltaDays <= n / MinutesPerDay <= MaxTimedeltaDays
  }

  /** The refresh interval in minutes chosen at setup: the options value when
      it is truthy, otherwise the default. `timedelta(minutes=...)` accepts
      integers and booleans, raises `TypeError` on anything else, and raises
      `OverflowError` when the interval exceeds its range. */
  function UpdateIntervalMinutes(options: map<string, Value>, defaultMinutes: int): (r: Result<int>)
    ensures !Truthy(Get(options, ScanIntervalKey, VNone)) ==>
      r == (if TimedeltaMinutesFit(defaultMinutes) then Ok(defaultMinutes)
            else Raise(OverflowError("timedelta minutes")))
    ensures ScanIntervalKey in options && options[ScanIntervalKey].VInt? && options[ScanIntervalKey].i != 0 ==>
      r == (if TimedeltaMinutesFit(options[ScanIntervalKey].i) then Ok(options[ScanIntervalKey].i)
            else Raise(OverflowError("timedelta minutes")))
    ensures ScanIntervalKey in options && options[ScanIntervalKey] == VBool(true) ==> r == Ok(1)
    ensures (r.Raise? && r.error.TypeError?) <==>
      ScanIntervalKey in options && Truthy(options[ScanIntervalKey])
      && !options[ScanIntervalKey].VInt? && !options[ScanIntervalKey].VBool?
    ensures r.Raise? ==> r.error.TypeError? || r.error.OverflowError?
    ensures r.Ok? ==> TimedeltaMinutesFit(r.value)
    ensures defaultMinutes != 0 && r.Ok? ==> r.value != 0
  {
    var v := Get(options, ScanIntervalKey, VNone);
    var minutes :=
      if !Truthy(v) then Ok(defaultMinutes)
      else match v
        case VInt(n) => Ok(n)
        case VBool(_) => Ok(1)
        case _ => Raise(TypeError("timedelta minutes"));
    if minutes.Ok? && !TimedeltaMinutesFit(minutes.value) then Raise(OverflowError("timedelta minutes"))
    else minutes
  }

  /** Whether report requests are enabled: the options flag, default false. */
  predicate ReportEnabled(options: map<string, Value>) {
    Truthy(Get(options, ReportRequestKey, VBool(false)))
  }

  /** The report interval in days, from options or the default. It is compared
      with an integer, which raises `TypeError` unless it is an integer (or a
      boolean, which Python compares as 0 or 1). */
  function ReportInterval(options: map<string, Value>, defaultDays: int): (r: Result<int>)
    ensures ReportScanIntervalKey !in options ==> r == Ok(defaultDays)
    ensures ReportScanIntervalKey in options && options[ReportScanIntervalKey].VInt? ==>
      r == Ok(options[ReportScanIntervalKey].i)
    ensures ReportScanIntervalKey in options && options[ReportScanIntervalKey].VBool? ==>
      r == Ok(if options[ReportScanIntervalKey].b then 1 else 0)
    ensures r.Raise? <==>
      ReportScanIntervalKey in options
      && !options[ReportScanIntervalKey].VInt? && !options[ReportScanIntervalKey].VBool?
  {
    if ReportScanIntervalKey !in options then Ok(defaultDays)
    else match options[ReportScanIntervalKey]
      case VInt(n) => Ok(n)
      case VBool(b) => Ok(if b then 1 else 0)
      case _ => Raise(TypeError("report interval comparison"))
  }
}

=== FILE: coordinator.dfy ===
/** `VolkswagenCoordinator`: construction from a config entry, login, vehicle
    selection, report-request gating and one refresh cycle. The external
    client's calls are inputs: the fetched vehicle list (`None` when the
    client's update fails) and the outcome of each login or report attempt. */
module VolkswagenCoordinator {
  import opened Common
  import opened Values
  import opened Text
  import opened Records
  import opened Config

  /** The outcome of a call into the external client. */
  datatype Attempt = Succeeded | Failed | Raised

  /** Construction: the configured VIN is upper-cased and kept; the connection
      reads username, password and region from `data` (the region's `data`
      value is read even when `options` overrides it), so a missing key raises
      before a coordinator exists. */
  function NewCoordinator(entry: ConfigEntry): (r: Result<Coordinator>)
    ensures VehicleKey !in entry.data ==> r == Raise(KeyError(VehicleKey))
    ensures VehicleKey in entry.data && !entry.data[VehicleKey].VStr? ==> r == Raise(AttributeError("upper"))
    ensures VehicleKey in entry.data && entry.data[VehicleKey].VStr? && UsernameKey !in entry.data ==>
      r == Raise(KeyError(UsernameKey))
    ensures
      (&& VehicleKey in entry.data && entry.data[VehicleKey].VStr? && UsernameKey in entry.data
       && PasswordKey !in entry.data) ==>
      r == Raise(KeyError(PasswordKey))
    ensures
      (&& VehicleKey in entry.data && entry.data[VehicleKey].VStr? && UsernameKey in entry.data
       && PasswordKey in entry.data && RegionKey !in entry.data) ==>
      r == Raise(KeyError(RegionKey))
    ensures r.Ok? <==>
      && VehicleKey in entry.data && entry.data[VehicleKey].VStr?
      && UsernameKey in entry.data && PasswordKey in entry.data && RegionKey in entry.data
    ensures r.Ok? ==> r.value.vin == Upper(entry.data[VehicleKey].s)
    ensures r.Ok? ==>
      && !r.value.loggedIn && r.value.reportLastUpdated.None?
      && r.value.platforms == {} && r.value.data == []
  {
    if VehicleKey !in entry.data then Raise(KeyError(VehicleKey))
    else if !entry.data[VehicleKey].VStr? then Raise(AttributeError("upper"))
    else if UsernameKey !in entry.data then Raise(KeyError(UsernameKey))
    else if PasswordKey !in entry.data then Raise(KeyError(PasswordKey))
    else if RegionKey !in entry.data then Raise(KeyError(RegionKey))
    // The host's snapshot is `None` until the first successful refresh; the
    // empty snapshot stands for it. Only a successful refresh ever exposes
    // the snapshot to the data holder, so the difference is never observed.
    else Ok(Coordinator(Upper(entry.data[VehicleKey].s), false, None, {}, [], true))
  }

  /** `async_login`: an existing session is kept; otherwise the client's login
      (with its retries) decides. An exception from the client escapes. The
      first component of the result is the returned flag. */
  function Login(c: Coordinator, attempt: Attempt): (r: Result<(bool, Coordinator)>)
    ensures c.loggedIn ==> r == Ok((true, c))
    ensures r.Raise? <==> !c.loggedIn && attempt == Raised
    ensures r.Ok? ==> r.value.1 == c.(loggedIn := r.value.0)
    ensures r.Ok? ==> (r.value.0 <==> c.loggedIn || attempt == Succeeded)
  {
    if c.loggedIn then Ok((true, c))
    else match attempt
      case Raised => Raise(ExternalError)
      case Failed => Ok((false, c))
      case Succeeded => Ok((true, c.(loggedIn := true)))
  }

  /** Whether a vehicle is the configured one: its upper-cased VIN equals the
      coordinator's (already upper-cased) VIN. */
  predicate IsConfiguredVehicle(vin: string, v: Vehicle) {
    Upper(v.vin) == vin
  }

  /** `update`: the first fetched vehicle whose upper-cased VIN equals the
      configured one; none when the fetch failed or nothing matches. */
  function SelectVehicle(vin: string, fetched: Option<seq<Vehicle>>): (r: Option<Vehicle>)
    ensures fetched.None? ==> r.None?
    ensures r.Some? ==>
      exists i :: 0 <= i < |fetched.value| && fetched.value[i] == r.value
        && IsConfiguredVehicle(vin, fetched.value[i])
        && forall j :: 0 <= j < i ==> !IsConfiguredVehicle(vin, fetched.value[j])
    ensures fetched.Some? && r.None? ==>
      forall v :: v in fetched.value ==> !IsConfiguredVehicle(vin, v)
  {
    match fetched
    case None => None
    case Some(vehicles) =>
      match FirstIndex(vehicles, v => IsConfiguredVehicle(vin, v))
      case None => None
      case Some(i) => Some(vehicles[i])
  }

  /** Selection ignores case: a configured VIN written in any case finds a
      listed vehicle whose VIN differs from it only in case. */
  lemma SelectionIgnoresCase(configured: string, vehicles: seq<Vehicle>, k: nat)
    requires k < |vehicles| && Lower(vehicles[k].vin) == Lower(configured)
    ensures SelectVehicle(Upper(configured), Some(vehicles)).Some?
  {
  }

  /** What a report request did. */
  datatype ReportStep = Skipped | LoginFailed | RequestFailed | ErrorSwallowed | Requested

  /** The inputs of one report request: whole days elapsed since the last
      successful request, the clock when it succeeds, and the outcomes of the
      client's login and report calls. */
  datatype ReportCall = ReportCall(elapsedDays: int, now: int, login: Attempt, request: Attempt)

  /** Days since the last successful request; "never" counts as one day. */
  function DaysSinceLastReport(last: Option<int>, elapsedDays: int): int {
    if last.None? then 1 else elapsedDays
  }

  /** `report_request`: skipped while fewer days than the interval have
      passed; otherwise logs in if needed and asks the car for a report. Only
      a successful request moves the timestamp; failures and exceptions are
      swallowed and leave it as it was. */
  function ReportRequest(c: Coordinator, interval: int, call: ReportCall): (r: (ReportStep, Coordinator))
    ensures r.0 == Skipped <==> DaysSinceLastReport(c.reportLastUpdated, call.elapsedDays) < interval
    ensures c.reportLastUpdated.None? ==> (r.0 == Skipped <==> 1 < interval)
    ensures r.0 == Requested <==>
      r.0 != Skipped && (c.loggedIn || call.login == Succeeded) && call.request == Succeeded
    ensures r.1.reportLastUpdated == (if r.0 == Requested then Some(call.now) else c.reportLastUpdated)
    ensures r.1.loggedIn <==> c.loggedIn || (r.0 != Skipped && call.login == Succeeded)
    ensures r.1 == c.(reportLastUpdated := r.1.reportLastUpdated, loggedIn := r.1.loggedIn)
  {
    if DaysSinceLastReport(c.reportLastUpdated, call.elapsedDays) < interval then (Skipped, c)
    else if !c.loggedIn && call.login.Raised? then (ErrorSwallowed, c)
    else if !c.loggedIn && call.login.Failed? then (LoginFailed, c)
    else
      assert c.loggedIn || call.login.Succeeded?;
      var session := c.(loggedIn := true);
      match call.request
      case Raised => (ErrorSwallowed, session)
      case Failed => (RequestFailed, session)
      case Succeeded => (Requested, session.(reportLastUpdated := Some(call.now)))
  }

  /** The coordinator after a series of report requests with one interval. */
  function RunReports(c: Coordinator, interval: int, calls: seq<ReportCall>): Coordinator
    decreases |calls|
  {
    if calls == [] then c
    else RunReports(ReportRequest(c, interval, calls[0]).1, interval, calls[1..])
  }

  /** With an interval above one day, a coordinator that never requested a
      report never will: every request is skipped and the timestamp stays
      unset, whatever the clock and the client do. */
  lemma {:induction false} NoReportEverAboveOneDay(c: Coordinator, interval: int, calls: seq<ReportCall>)
    requires c.reportLastUpdated.None? && 1 < interval
    ensures RunReports(c, interval, calls).reportLastUpdated.None?
    decreases |calls|
  {
    if calls != [] {
      var next := ReportRequest(c, interval, calls[0]);
      assert next.0 == Skipped;
      NoReportEverAboveOneDay(next.1, interval, calls[1..]);
    }
  }

  /** After a successful request, a later call fewer days after it than the
      interval is skipped. */
  lemma SecondRequestWithinIntervalSkipped(c: Coordinator, interval: int, first: ReportCall, second: ReportCall)
    requires ReportRequest(c, interval, first).0 == Requested
    requires second.elapsedDays < interval
    ensures ReportRequest(ReportRequest(c, interval, first).1, interval, second).0 == Skipped
  {
  }

  /** The arguments handed to the external dashboard builder. */
  datatype DashboardArgs = DashboardArgs(mutable: Value, spin: Value, units: Units)

  /** How a refresh cycle ended: the vehicle was not obtained, an exception
      escaped, or the dashboard is to be built for the vehicle. */
  datatype RefreshResult =
    | VehicleUnavailable
    | RefreshRaised(error: PyError)
    | Fetched(vehicle: Vehicle, args: DashboardArgs)

  /** `_async_update_data`: select the vehicle, make a report request when
      enabled, resolve the conversion mode and pass the dashboard settings on.
      The second component is the coordinator after the report request. */
  function UpdateData(c: Coordinator, entry: ConfigEntry, fetched: Option<seq<Vehicle>>,
                      defaultReportInterval: int, call: ReportCall): (r: (RefreshResult, Coordinator))
    ensures SelectVehicle(c.vin, fetched).None? ==> r == (VehicleUnavailable, c)
    ensures r.0.Fetched? ==>
      && fetched.Some? && r.0.vehicle in fetched.value
      && IsConfiguredVehicle(c.vin, r.0.vehicle)
    ensures r.0.Fetched? ==>
      r.0.args == DashboardArgs(Get(entry.data, MutableKey, VNone), Get(entry.data, SpinKey, VNone),
                                UnitsFor(ConvertConf(entry)))
    ensures
      (&& SelectVehicle(c.vin, fetched).Some?
       && !(ReportEnabled(entry.options) && ReportInterval(entry.options, defaultReportInterval).Raise?)) ==>
      r.0 == Fetched(SelectVehicle(c.vin, fetched).value,
                     DashboardArgs(Get(entry.data, MutableKey, VNone), Get(entry.data, SpinKey, VNone),
                                   UnitsFor(ConvertConf(entry))))
    ensures r.0.RefreshRaised? ==>
      ReportEnabled(entry.options) && ReportInterval(entry.options, defaultReportInterval).Raise?
    ensures
      (&& SelectVehicle(c.vin, fetched).Some? && ReportEnabled(entry.options)
       && ReportInterval(entry.options, defaultReportInterval).Raise?) ==>
      r == (RefreshRaised(ReportInterval(entry.options, defaultReportInterval).error), c)
    ensures !ReportEnabled(entry.options) ==> r.1 == c
    ensures
      (&& ReportEnabled(entry.options) && SelectVehicle(c.vin, fetched).Some?
       && ReportInterval(entry.options, defaultReportInterval).Ok?) ==>
      r.1 == ReportRequest(c, ReportInterval(entry.options, defaultReportInterval).value, call).1
  {
    match SelectVehicle(c.vin, fetched)
    case None => (VehicleUnavailable, c)
    case Some(vehicle) =>
      var args := DashboardArgs(Get(entry.data, MutableKey, VNone), Get(entry.data, SpinKey, VNone),
                                UnitsFor(ConvertConf(entry)));
      if !ReportEnabled(entry.options) then (Fetched(vehicle, args), c)
      else match ReportInterval(entry.options, defaultReportInterval)
        case Raise(e) => (RefreshRaised(e), c)
        case Ok(interval) => (Fetched(vehicle, args), ReportRequest(c, interval, call).1)
  }

  /** One refresh cycle with the host's bookkeeping: on success the snapshot
      becomes the instruments the dashboard builder returned (`dashboard`); on
      failure the previous snapshot stays and the success flag drops. */
  function Refresh(c: Coordinator, entry: ConfigEntry, fetched: Option<seq<Vehicle>>,
                   defaultReportInterval: int, call: ReportCall, dashboard: seq<Instrument>): (r: Coordinator)
    ensures r.lastUpdateSuccess <==> UpdateData(c, entry, fetched, defaultReportInterval, call).0.Fetched?
    ensures r.data == (if r.lastUpdateSuccess then dashboard else c.data)
    ensures r == UpdateData(c, entry, fetched, defaultReportInterval, call).1
                   .(data := r.data, lastUpdateSuccess := r.lastUpdateSuccess)
    ensures r.vin == c.vin && r.platforms == c.platforms
    ensures SelectVehicle(c.vin, fetched).None? ==> r == c.(lastUpdateSuccess := false)
  {
    var (result, next) := UpdateData(c, entry, fetched, defaultReportInterval, call);
    if result.Fetched? then next.(data := dashboard, lastUpdateSuccess := true)
    else next.(lastUpdateSuccess := false)
  }
}

=== FILE: data_holder.dfy ===
/** `VolkswagenData`: the per-entry holder of the naming policy, the static
    instrument set and the coordinator, with the instrument lookup and the
    vehicle naming rule. */
module DataHolder {
  import opened Common
  import opened Values
  import opened Text
  import opened Records

  /** The naming policy read from the `name` setting: one name for every
      vehicle, a map from lower-cased VIN to name, or anything else. */
  datatype NamePolicy = Fixed(name: string) | ByVin(names: map<string, string>) | Unusable

  /** The holder's state. `instruments` is the static set in its iteration
      order; it is searched only when there is no coordinator. */
  datatype VolkswagenData = VolkswagenData(
    instruments: seq<Instrument>,
    names: NamePolicy,
    coordinator: Option<Coordinator>)

  function PolicyOf(v: Value): (r: NamePolicy)
    ensures v.VStr? <==> r.Fixed?
    ensures r.Fixed? ==> r.name == v.s
    ensures r.ByVin? <==> v.VDict? && forall k :: k in v.entries ==> v.entries[k].VStr?
    ensures r.ByVin? ==>
      && r.names.Keys == v.entries.Keys
      && forall k :: k in r.names ==> v.entries[k] == VStr(r.names[k])
  {
    match v
    case VStr(s) => Fixed(s)
    case VDict(m) =>
      if forall k :: k in m ==> m[k].VStr? then ByVin(map k | k in m :: m[k].s) else Unusable
    case _ => Unusable
  }

  /** Construction: the settings are the `volkswagencarnet` sub-map of the
      config when present (a non-map there raises on `.get`), else the config
      itself; the naming policy is their `name` value. */
  function NewData(config: map<string, Value>, coordinator: Option<Coordinator>): (r: Result<VolkswagenData>)
    ensures r.Raise? <==> Domain in config && !config[Domain].VDict?
    ensures r.Ok? ==> r.value.instruments == [] && r.value.coordinator == coordinator
    ensures Domain !in config ==> r.Ok? && r.value.names == PolicyOf(Get(config, NameKey, VNone))
    ensures r.Ok? && Domain in config ==>
      r.value.names == PolicyOf(Get(config[Domain].entries, NameKey, VNone))
  {
    var settings := Get(config, Domain, VDict(config));
    match settings
    case VDict(m) => Ok(VolkswagenData([], PolicyOf(Get(m, NameKey, VNone)), coordinator))
    case _ => Raise(AttributeError("get"))
  }

  /** Where lookups search: the coordinator's latest snapshot when a
      coordinator exists, otherwise the static set. */
  function LookupSource(d: VolkswagenData): seq<Instrument> {
    if d.coordinator.Some? then d.coordinator.value.data else d.instruments
  }

  predicate HasIdentity(x: Instrument, vin: string, component: string, attr: string) {
    x.vehicle.vin == vin && x.component == component && x.attr == attr
  }

  /** `instrument`: the first instrument of the lookup source with exactly the
      given identity, or none; it never raises. */
  function FindInstrument(d: VolkswagenData, vin: string, component: string, attr: string): (r: Option<Instrument>)
    ensures r.Some? ==> HasIdentity(r.value, vin, component, attr)
    ensures r.Some? ==>
      exists i :: 0 <= i < |LookupSource(d)| && LookupSource(d)[i] == r.value
        && forall j :: 0 <= j < i ==> !HasIdentity(LookupSource(d)[j], vin, component, attr)
    ensures r.None? <==> forall x :: x in LookupSource(d) ==> !HasIdentity(x, vin, component, attr)
  {
    var source := LookupSource(d);
    match FirstIndex(source, x => HasIdentity(x, vin, component, attr))
    case None => None
    case Some(i) => Some(source[i])
  }

  /** With a coordinator present, the static set is never consulted: two
      holders with the same coordinator find the same instrument. */
  lemma LookupIgnoresStaticSetWithCoordinator(d: VolkswagenData, others: seq<Instrument>,
                                              vin: string, component: string, attr: string)
    requires d.coordinator.Some?
    ensures FindInstrument(d.(instruments := others), vin, component, attr) ==
            FindInstrument(d, vin, component, attr)
  {
  }

  /** `vehicle_name`: a fixed name is used for every vehicle; with a name map,
      a non-empty VIN is looked up lower-cased and falls back to the raw VIN;
      an empty VIN gives "". Any other policy raises once a non-empty VIN
      reaches the membership test. */
  function VehicleName(d: VolkswagenData, vehicle: Vehicle): (r: Result<string>)
    ensures d.names.Fixed? ==> r == Ok(d.names.name)
    ensures !d.names.Fixed? && vehicle.vin == "" ==> r == Ok("")
    ensures d.names.ByVin? && vehicle.vin != "" && Lower(vehicle.vin) in d.names.names ==>
      r == Ok(d.names.names[Lower(vehicle.vin)])
    ensures d.names.ByVin? && vehicle.vin != "" && Lower(vehicle.vin) !in d.names.names ==>
      r == Ok(vehicle.vin)
    ensures r.Raise? <==> d.names.Unusable? && vehicle.vin != ""
  {
    match d.names
    case Fixed(name) => Ok(name)
    case ByVin(names) =>
      if vehicle.vin == "" then Ok("")
      else if Lower(vehicle.vin) in names then Ok(names[Lower(vehicle.vin)])
      else Ok(vehicle.vin)
    case Unusable =>
      if vehicle.vin == "" then Ok("") else Raise(TypeError("argument of type is not iterable"))
  }

  /** Two vehicles whose VINs differ only in case get the same mapped name. */
  lemma VehicleNameIgnoresVinCase(d: VolkswagenData, a: Vehicle, b: Vehicle)
    requires d.names.ByVin? && a.vin != "" && b.vin != ""
    requires Lower(a.vin) == Lower(b.vin) && Lower(a.vin) in d.names.names
    ensures VehicleName(d, a) == VehicleName(d, b)
  {
  }

  /** The two naming examples: a map entry keyed by the lower-cased VIN, and a
      fixed name. */
  lemma VehicleNameExamples(car: Vehicle, instruments: seq<Instrument>, coordinator: Option<Coordinator>)
    requires car.vin == "VIN123"
    ensures VehicleName(VolkswagenData(instruments, ByVin(map["vin123" := "My Car"]), coordinator), car)
            == Ok("My Car")
    ensures VehicleName(VolkswagenData(instruments, Fixed("Fleet Car"), coordinator), car) == Ok("Fleet Car")
  {
    assert Lower(car.vin) == "vin123";
  }
}

=== FILE: entity.dfy ===
/** `VolkswagenEntity`: the façade bound to one (VIN, component, attribute)
    triple. Every property re-resolves the instrument through the data holder;
    reading a property of a missing instrument raises `AttributeError`. */
module Entity {
  import opened Common
  import opened Values
  import opened Records
  import opened Config
  import opened DataHolder
  import opened VolkswagenCoordinator

  datatype Entity = Entity(data: VolkswagenData, vin: string, component: string, attribute: string)

  /** The instrument the entity currently stands for. */
  function Current(e: Entity): Option<Instrument> {
    FindInstrument(e.data, e.vin, e.component, e.attribute)
  }

  /** `unique_id`: VIN, component and attribute joined by '-'. */
  function UniqueId(e: Entity): (r: string)
    ensures |r| == |e.vin| + |e.component| + |e.attribute| + 2
    ensures r[..|e.vin|] == e.vin && r[|e.vin|] == '-'
    ensures r[|e.vin| + 1 .. |e.vin| + 1 + |e.component|] == e.component
    ensures r[|e.vin| + 1 + |e.component|] == '-'
    ensures r[|e.vin| + |e.component| + 2 ..] == e.attribute
  {
    e.vin + "-" + e.component + "-" + e.attribute
  }

  /** The unique id survives any change of the data holder, in particular a
      refresh that replaces every instrument. */
  lemma UniqueIdStableAcrossRefresh(e: Entity, refreshed: VolkswagenData)
    ensures UniqueId(e.(data := refreshed)) == UniqueId(e)
  {
  }

  /** After a refresh, the entity reads the instrument of the new snapshot:
      whatever the previous snapshot held, the current instrument is the first
      match in the new one. */
  lemma EntityReadsLatestSnapshot(e: Entity, c: Coordinator, snapshot: seq<Instrument>)
    requires e.data.coordinator == Some(c)
    ensures var e' := e.(data := e.data.(coordinator := Some(c.(data := snapshot))));
      && (Current(e').Some? ==> Current(e').value in snapshot)
      && (Current(e').None? <==>
            forall x :: x in snapshot ==> !HasIdentity(x, e.vin, e.component, e.attribute))
  {
  }

  /** `name`: the vehicle's display name, a space, the instrument's name. The
      vehicle is the one the instrument belongs to. */
  function Name(e: Entity): (r: Result<string>)
    ensures Current(e).None? ==> r.Raise? && r.error.AttributeError?
    ensures Current(e).Some? ==>
      (r.Ok? <==> VehicleName(e.data, Current(e).value.vehicle).Ok?)
    ensures r.Ok? ==>
      && Current(e).Some?
      && r.value == VehicleName(e.data, Current(e).value.vehicle).value + " " + Current(e).value.name
  {
    match Current(e)
    case None => Raise(AttributeError("name"))
    case Some(x) =>
      match VehicleName(e.data, x.vehicle)
      case Raise(err) => Raise(err)
      case Ok(vehicleName) => Ok(vehicleName + " " + x.name)
  }

  /** `available`: the coordinator's last-success flag, or true without a
      coordinator. */
  function Available(e: Entity): (r: bool)
    ensures e.data.coordinator.None? ==> r
    ensures e.data.coordinator.Some? ==> (r <==> e.data.coordinator.value.lastUpdateSuccess)
  {
    match e.data.coordinator
    case None => true
    case Some(c) => c.lastUpdateSuccess
  }

  /** After a refresh cycle, an entity is available exactly when the cycle
      found the configured vehicle in the fetched list and, with report
      requests enabled, the report interval could be read. */
  lemma AvailabilityTracksLastRefresh(e: Entity, entry: ConfigEntry, fetched: Option<seq<Vehicle>>,
                                      defaultReportInterval: int, call: ReportCall, dashboard: seq<Instrument>)
    requires e.data.coordinator.Some?
    ensures var c := e.data.coordinator.value;
      var refreshed := Refresh(c, entry, fetched, defaultReportInterval, call, dashboard);
      Available(e.(data := e.data.(coordinator := Some(refreshed)))) <==>
        && SelectVehicle(c.vin, fetched).Some?
        && !(ReportEnabled(entry.options) && ReportInterval(entry.options, defaultReportInterval).Raise?)
  {
  }

  const ModelKey := "model"
  const ImageUrlKey := "image_url"

  /** `extra_state_attributes`: the instrument's attributes with `model` set
      to "model/model_year", plus `image_url` when the vehicle supports model
      images. */
  function ExtraStateAttributes(e: Entity): (r: Result<map<string, Value>>)
    ensures r.Ok? <==> Current(e).Some?
    ensures Current(e).None? ==> r.Raise? && r.error.AttributeError?
    ensures r.Ok? ==>
      var x := Current(e).value;
      && r.value.Keys == x.attributes.Keys + {ModelKey}
           + (if x.vehicle.modelImageSupported then {ImageUrlKey} else {})
      && r.value[ModelKey] == VStr(x.vehicle.model + "/" + x.vehicle.modelYear)
      && (x.vehicle.modelImageSupported ==> r.value[ImageUrlKey] == VStr(x.vehicle.modelImage))
      && (forall k :: k in x.attributes && k != ModelKey && k != ImageUrlKey ==>
            r.value[k] == x.attributes[k])
      && (!x.vehicle.modelImageSupported && ImageUrlKey in x.attributes ==>
            r.value[ImageUrlKey] == x.attributes[ImageUrlKey])
  {
    match Current(e)
    case None => Raise(AttributeError("attributes"))
    case Some(x) =>
      var attributes := x.attributes[ModelKey := VStr(x.vehicle.model + "/" + x.vehicle.modelYear)];
      if !x.vehicle.modelImageSupported then Ok(attributes)
      else Ok(attributes[ImageUrlKey := VStr(x.vehicle.modelImage)])
  }

  /** Which icon the entity shows: the host's battery icon for the battery
      level and charging attributes, otherwise the instrument's own icon. */
  datatype IconChoice = BatteryIcon(level: Value, charging: bool) | InstrumentIcon(icon: string)

  const BatteryAttributes: seq<string> := ["battery_level", "charging"]

  function Icon(e: Entity): (r: Result<IconChoice>)
    ensures r.Ok? <==> Current(e).Some?
    ensures Current(e).None? ==> r.Raise? && r.error.AttributeError?
    ensures r.Ok? && Current(e).value.attr in BatteryAttributes ==>
      r.value == BatteryIcon(Current(e).value.state, Current(e).value.vehicle.charging)
    ensures r.Ok? && Current(e).value.attr !in BatteryAttributes ==>
      r.value == InstrumentIcon(Current(e).value.icon)
  {
    match Current(e)
    case None => Raise(AttributeError("attr"))
    case Some(x) =>
      if x.attr in BatteryAttributes then Ok(BatteryIcon(x.state, x.vehicle.charging))
      else Ok(InstrumentIcon(x.icon))
  }

  /** The device the entity belongs to, identified by the bound VIN. */
  datatype DeviceInfo = DeviceInfo(
    identifiers: set<(string, string)>,
    name: string,
    manufacturer: string,
    model: string,
    swVersion: string)

  function Device(e: Entity): (r: Result<DeviceInfo>)
    ensures Current(e).None? ==> r.Raise? && r.error.AttributeError?
    ensures r.Ok? ==> Current(e).Some? && VehicleName(e.data, Current(e).value.vehicle).Ok?
    ensures r.Ok? ==>
      var v := Current(e).value.vehicle;
      r.value == DeviceInfo({(Domain, e.vin)}, VehicleName(e.data, v).value, "Volkswagen", v.model, v.modelYear)
    ensures Current(e).Some? && VehicleName(e.data, Current(e).value.vehicle).Ok? ==> r.Ok?
  {
    match Current(e)
    case None => Raise(AttributeError("vehicle"))
    case Some(x) =>
      match VehicleName(e.data, x.vehicle)
      case Raise(err) => Raise(err)
      case Ok(vehicleName) =>
        Ok(DeviceInfo({(Domain, e.vin)}, vehicleName, "Volkswagen", x.vehicle.model, x.vehicle.modelYear))
  }
}

=== FILE: records.dfy ===
/** The records the integration works on, and the configuration keys and
    conversion-mode names it reads. */
module Records {
  import opened Common
  import opened Values

  /** A vehicle as the telematics client reports it; only the fields the
      integration reads. */
  datatype Vehicle = Vehicle(
    vin: string,
    model: string,
    modelYear: string,
    charging: bool,
    modelImageSupported: bool,
    modelImage: string)

  /** One telemetry or control point of a vehicle. Its identity is the triple
      (vehicle VIN, component, attr); `slugAttr` is the name the resource
      allow-list uses. */
  datatype Instrument = Instrument(
    vehicle: Vehicle,
    component: string,
    attr: string,
    slugAttr: string,
    name: string,
    icon: string,
    state: Value,
    attributes: map<string, Value>)

  /** A config entry: the data given at setup and the options edited later. */
  datatype ConfigEntry = ConfigEntry(data: map<string, Value>, options: map<string, Value>)

  /** The coordinator's mutable state: the upper-cased configured VIN, the
      session flag, the time of the last successful report request, the
      platforms set up for the entry, the latest instrument snapshot and
      whether the latest refresh succeeded. */
  datatype Coordinator = Coordinator(
    vin: string,
    loggedIn: bool,
    reportLastUpdated: Option<int>,
    platforms: set<string>,
    data: seq<Instrument>,
    lastUpdateSuccess: bool)

  const Domain := "volkswagencarnet"

  // Configuration keys.
  const NameKey := "name"
  const ResourcesKey := "resources"
  const ScanIntervalKey := "scan_interval"
  const UsernameKey := "username"
  const PasswordKey := "password"
  const VehicleKey := "vehicle"
  const RegionKey := "region"
  const MutableKey := "mutable"
  const SpinKey := "spin"
  const ConvertKey := "convert"
  const ScandinavianMilesKey := "scandinavian_miles"
  const ReportRequestKey := "report_request"
  const ReportScanIntervalKey := "report_scan_interval"

  // Unit-conversion modes; the Scandinavian-miles mode shares its name with
  // the legacy flag's key.
  const NoConversion := "no_conversion"
  const ImperialUnits := "imperial_units"
  const ScandinavianMiles := ScandinavianMilesKey
}

=== FILE: services.dfy ===
/** The four service-call schemas. Each field is required or optional and has
    one check; keys outside the schema pass unchecked. Values arrive already
    typed: a string check accepts only strings, an integer check only integers
    and a boolean check only booleans. Membership checks use Python `==`, so
    `False` counts as 0 and `True` as 1. */
module Services {
  import opened Common
  import opened Values

  datatype Check =
    | StringOfLength(n: nat)      // a string of exactly n characters
    | OneOf(allowed: seq<Value>)  // `vol.In(allowed)`
    | CountInRange(min: Option<int>, max: Option<int>, minIncluded: bool, maxIncluded: bool)
      // `vol.All(cv.positive_int, vol.Range(min, max, min_included, max_included))`:
      // a non-negative integer within whichever bounds are given
    | AnyString
    | Boolean
    | StringOrCount               // a string or a non-negative integer

  datatype Field = Field(key: string, required: bool, check: Check)

  predicate Accepts(check: Check, v: Value) {
    match check
    case StringOfLength(n) => v.VStr? && |v.s| == n
    case OneOf(allowed) => InList(v, allowed)
    case CountInRange(min, max, minIncluded, maxIncluded) =>
      && v.VInt? && 0 <= v.i
      && (min.Some? ==> if minIncluded then min.value <= v.i else min.value < v.i)
      && (max.Some? ==> if maxIncluded then v.i <= max.value else v.i < max.value)
    case AnyString => v.VStr?
    case Boolean => v.VBool?
    case StringOrCount => v.VStr? || (v.VInt? && 0 <= v.i)
  }

  /** A field is violated when it is required and missing, or present with a
      value its check rejects. */
  predicate Violated(f: Field, call: map<string, Value>) {
    if f.key in call then !Accepts(f.check, call[f.key]) else f.required
  }

  /** The keys of the violated fields; a call is accepted when there are none. */
  function Violations(schema: seq<Field>, call: map<string, Value>): (r: set<string>)
    ensures forall i :: 0 <= i < |schema| && Violated(schema[i], call) ==> schema[i].key in r
    ensures forall k :: k in r ==> exists i :: 0 <= i < |schema| && schema[i].key == k && Violated(schema[i], call)
  {
    set i | 0 <= i < |schema| && Violated(schema[i], call) :: schema[i].key
  }

  predicate Valid(schema: seq<Field>, call: map<string, Value>) {
    Violations(schema, call) == {}
  }

  const DeviceId := Field("device_id", false, StringOfLength(32))
  const RequiredDeviceId := DeviceId.(required := true)

  const ChargeLevels: seq<Value> :=
    [VInt(0), VInt(10), VInt(20), VInt(30), VInt(40), VInt(50), VInt(60), VInt(70), VInt(80), VInt(90), VInt(100)]

  const Currents: seq<Value> :=
    [VInt(0), VInt(5), VInt(10), VInt(13), VInt(16), VInt(32),
     VStr("0"), VStr("5"), VStr("10"), VStr("13"), VStr("16"), VStr("32")]

  const TimerBasicSettingsSchema: seq<Field> := [
    DeviceId,
    Field("min_level", false, OneOf(ChargeLevels)),
    Field("target_temperature_celsius", false, StringOrCount),
    Field("target_temperature_fahrenheit", false, StringOrCount)
  ]

  const ChargerMaxCurrentSchema: seq<Field> := [
    DeviceId,
    Field("max_current", false, OneOf(Currents + [VStr("max")]))
  ]

  /** The profile-number check as the schedule and profile schemas write it:
      `vol.Range(min_included=1, max_included=10)` passes 1 and 10 as the
      inclusivity flags, so neither bound is set and any non-negative integer
      passes. */
  const ProfileNumberAsWritten := CountInRange(None, None, true, true)

  /** The profile-number check the schemas evidently mean: 1 to 10 inclusive. */
  const ProfileNumber := CountInRange(Some(1), Some(10), true, true)

  const UpdateScheduleSchema: seq<Field> := ScheduleFields + ScheduleTimeFields

  const ScheduleFields: seq<Field> := [
    RequiredDeviceId,
    Field("timer_id", true, OneOf([VInt(1), VInt(2), VInt(3)])),
    Field("charging_profile", false, ProfileNumberAsWritten),
    Field("enabled", false, Boolean)
  ]

  const ScheduleTimeFields: seq<Field> := [
    Field("frequency", false, OneOf([VStr("cyclic"), VStr("single")])),
    Field("departure_time", false, AnyString),
    Field("departure_datetime", false, AnyString),
    Field("weekday_mask", false, StringOfLength(7))
  ]

  const UpdateProfileSchema: seq<Field> := ProfileFields + ProfileChargeFields

  const ProfileFields: seq<Field> := [
    RequiredDeviceId,
    Field("profile_id", true, ProfileNumberAsWritten),
    Field("profile_name", true, AnyString),
    Field("charging", false, Boolean),
    Field("climatisation", false, Boolean)
  ]

  /** The schedule and profile schemas with the intended 1..10 bound. */
  const IntendedChargingProfile := Field("charging_profile", false, ProfileNumber)
  const IntendedUpdateScheduleSchema: seq<Field> := UpdateScheduleSchema[2 := IntendedChargingProfile]

  const IntendedProfileId := Field("profile_id", true, ProfileNumber)
  const IntendedUpdateProfileSchema: seq<Field> := UpdateProfileSchema[1 := IntendedProfileId]

  const ProfileChargeFields: seq<Field> := [
    Field("target_level", false, OneOf(ChargeLevels)),
    Field("charge_max_current", false, OneOf(Currents)),
    Field("night_rate", false, Boolean),
    Field("night_rate_start", false, AnyString),
    Field("night_rate_end", false, AnyString)
  ]

  // Reference reading of the schemas, written field by field.

  predicate IsDeviceId(v: Value) { v.VStr? && |v.s| == 32 }

  /** A charge level: a multiple of 10 from 0 to 100 (or False, which equals 0). */
  predicate IsChargeLevel(v: Value) {
    (v.VInt? && 0 <= v.i <= 100 && v.i % 10 == 0) || v == VBool(false)
  }

  /** A charging current in amperes, as a number or its decimal string (or False). */
  predicate IsCurrent(v: Value) {
    || (v.VInt? && v.i in {0, 5, 10, 13, 16, 32})
    || (v.VStr? && v.s in {"0", "5", "10", "13", "16", "32"})
    || v == VBool(false)
  }

  predicate OptionalOk(call: map<string, Value>, key: string, ok: Value -> bool) {
    key in call ==> ok(call[key])
  }

  predicate IsString(v: Value) { v.VStr? }
  predicate IsBool(v: Value) { v.VBool? }
  predicate IsTemperature(v: Value) { v.VStr? || (v.VInt? && v.i >= 0) }
  predicate IsCurrentOrMax(v: Value) { IsCurrent(v) || v == VStr("max") }
  predicate IsCount(v: Value) { v.VInt? && v.i >= 0 }
  predicate IsProfileNumber(v: Value) { v.VInt? && 1 <= v.i <= 10 }
  predicate IsFrequency(v: Value) { v == VStr("cyclic") || v == VStr("single") }
  predicate IsWeekdayMask(v: Value) { v.VStr? && |v.s| == 7 }

  predicate TimerBasicSettingsOk(call: map<string, Value>) {
    && OptionalOk(call, "device_id", IsDeviceId)
    && OptionalOk(call, "min_level", IsChargeLevel)
    && OptionalOk(call, "target_temperature_celsius", IsTemperature)
    && OptionalOk(call, "target_temperature_fahrenheit", IsTemperature)
  }

  predicate ChargerMaxCurrentOk(call: map<string, Value>) {
    && OptionalOk(call, "device_id", IsDeviceId)
    && OptionalOk(call, "max_current", IsCurrentOrMax)
  }

  predicate UpdateScheduleOk(call: map<string, Value>) {
    && "device_id" in call && IsDeviceId(call["device_id"])
    && "timer_id" in call
    && (|| (call["timer_id"].VInt? && 1 <= call["timer_id"].i <= 3)
        || call["timer_id"] == VBool(true))
    && OptionalOk(call, "charging_profile", IsCount)
    && OptionalOk(call, "enabled", IsBool)
    && OptionalOk(call, "frequency", IsFrequency)
    && OptionalOk(call, "departure_time", IsString)
    && OptionalOk(call, "departure_datetime", IsString)
    && OptionalOk(call, "weekday_mask", IsWeekdayMask)
  }

  predicate UpdateProfileOk(call: map<string, Value>) {
    && "device_id" in call && IsDeviceId(call["device_id"])
    && "profile_id" in call && IsCount(call["profile_id"])
    && "profile_name" in call && call["profile_name"].VStr?
    && OptionalOk(call, "charging", IsBool)
    && OptionalOk(call, "climatisation", IsBool)
    && OptionalOk(call, "target_level", IsChargeLevel)
    && OptionalOk(call, "charge_max_current", IsCurrent)
    && OptionalOk(call, "night_rate", IsBool)
    && OptionalOk(call, "night_rate_start", IsString)
    && OptionalOk(call, "night_rate_end", IsString)
  }

  /** Accepted means no field of the schema is violated. */
  lemma ValidMeansNoViolation(schema: seq<Field>, call: map<string, Value>)
    ensures Valid(schema, call) <==> forall i :: 0 <= i < |schema| ==> !Violated(schema[i], call)
  {
  }

  lemma ChargeLevelsMeaning(v: Value)
    ensures InList(v, ChargeLevels) <==> IsChargeLevel(v)
  {
    if IsChargeLevel(v) {
      if v.VInt? {
        var k := v.i / 10;
        assert v == VInt(10 * k);
        assert forall j :: 0 <= j <= 10 ==> ChargeLevels[j] == VInt(10 * j);
        assert PyEq(v, ChargeLevels[k]);
      } else {
        assert PyEq(v, ChargeLevels[0]);
      }
    }
  }

  lemma CurrentsMeaning(v: Value)
    ensures InList(v, Currents) <==> IsCurrent(v)
  {
    if IsCurrent(v) {
      if v.VInt? || v.VStr? {
        assert v in Currents;
        assert PyEq(v, v);
      } else {
        assert PyEq(v, Currents[0]);
      }
    }
  }

  /** The timer basic-settings schema, read field by field: every field is
      optional; a device id has 32 characters, a minimum level is a multiple
      of 10 from 0 to 100, a temperature is a string or a non-negative integer. */
  lemma TimerBasicSettingsSchemaMeaning(call: map<string, Value>)
    ensures Valid(TimerBasicSettingsSchema, call) <==> TimerBasicSettingsOk(call)
  {
    var s := TimerBasicSettingsSchema;
    ValidMeansNoViolation(s, call);
    if "min_level" in call { ChargeLevelsMeaning(call["min_level"]); }
    assert !Violated(s[0], call) <==> OptionalOk(call, "device_id", IsDeviceId);
    assert !Violated(s[1], call) <==> OptionalOk(call, "min_level", IsChargeLevel);
    assert !Violated(s[2], call) <==> OptionalOk(call, "target_temperature_celsius", IsTemperature);
    assert !Violated(s[3], call) <==> OptionalOk(call, "target_temperature_fahrenheit", IsTemperature);
  }

  /** The charger max-current schema: both fields optional; the current is
      one of the listed amperages, as a number or a string, or "max". */
  lemma ChargerMaxCurrentSchemaMeaning(call: map<string, Value>)
    ensures Valid(ChargerMaxCurrentSchema, call) <==> ChargerMaxCurrentOk(call)
  {
    var s := ChargerMaxCurrentSchema;
    ValidMeansNoViolation(s, call);
    if "max_current" in call {
      var v := call["max_current"];
      CurrentsMeaning(v);
      if InList(v, Currents + [VStr("max")]) {
        var a :| a in Currents + [VStr("max")] && PyEq(v, a);
        if a !in Currents { assert v == VStr("max"); }
      }
      if IsCurrentOrMax(v) {
        if IsCurrent(v) {
          var a :| a in Currents && PyEq(v, a);
          assert a in Currents + [VStr("max")];
        } else {
          assert PyEq(v, (Currents + [VStr("max")])[12]);
        }
      }
    }
    assert !Violated(s[0], call) <==> OptionalOk(call, "device_id", IsDeviceId);
    assert !Violated(s[1], call) <==> OptionalOk(call, "max_current", IsCurrentOrMax);
  }

  /** The as-written profile-number check is a bare non-negative-integer check;
      the intended one adds the 1..10 bound. */
  lemma ProfileNumberChecks(v: Value)
    ensures Accepts(ProfileNumberAsWritten, v) <==> IsCount(v)
    ensures Accepts(ProfileNumber, v) <==> IsProfileNumber(v)
  {
  }

  lemma TimerIdMeaning(v: Value)
    ensures InList(v, [VInt(1), VInt(2), VInt(3)]) <==> (v.VInt? && 1 <= v.i <= 3) || v == VBool(true)
  {
    var ids := [VInt(1), VInt(2), VInt(3)];
    if v.VInt? && 1 <= v.i <= 3 {
      assert v in ids && PyEq(v, v);
    } else if v == VBool(true) {
      assert PyEq(v, ids[0]);
    }
  }

  /** The schedule schema: device id and timer id (1, 2 or 3) are required;
      the charging profile is any non-negative integer, the frequency "cyclic" or "single", the
      weekday mask a 7-character string. */
  lemma UpdateScheduleSchemaMeaning(call: map<string, Value>)
    ensures Valid(UpdateScheduleSchema, call) <==> UpdateScheduleOk(call)
  {
    ValidSplit(ScheduleFields, ScheduleTimeFields, call);
    var s := ScheduleFields;
    ValidMeansNoViolation(s, call);
    if "timer_id" in call { TimerIdMeaning(call["timer_id"]); }
    if "charging_profile" in call { ProfileNumberChecks(call["charging_profile"]); }
    assert !Violated(s[0], call) <==> "device_id" in call && IsDeviceId(call["device_id"]);
    assert !Violated(s[1], call) <==>
      "timer_id" in call
      && ((call["timer_id"].VInt? && 1 <= call["timer_id"].i <= 3) || call["timer_id"] == VBool(true));
    assert !Violated(s[2], call) <==> OptionalOk(call, "charging_profile", IsCount);
    assert !Violated(s[3], call) <==> OptionalOk(call, "enabled", IsBool);
    ScheduleTimeFieldsMeaning(call);
  }

  lemma ScheduleTimeFieldsMeaning(call: map<string, Value>)
    ensures Valid(ScheduleTimeFields, call) <==>
      && OptionalOk(call, "frequency", IsFrequency)
      && OptionalOk(call, "departure_time", IsString)
      && OptionalOk(call, "departure_datetime", IsString)
      && OptionalOk(call, "weekday_mask", IsWeekdayMask)
  {
    var s := ScheduleTimeFields;
    ValidMeansNoViolation(s, call);
    if "frequency" in call {
      var v := call["frequency"];
      var f := [VStr("cyclic"), VStr("single")];
      if IsFrequency(v) { assert v in f && PyEq(v, v); }
    }
    assert !Violated(s[0], call) <==> OptionalOk(call, "frequency", IsFrequency);
    assert !Violated(s[1], call) <==> OptionalOk(call, "departure_time", IsString);
    assert !Violated(s[2], call) <==> OptionalOk(call, "departure_datetime", IsString);
    assert !Violated(s[3], call) <==> OptionalOk(call, "weekday_mask", IsWeekdayMask);
  }

  /** The profile schema: device id, profile id (any non-negative integer) and profile name are
      required; the target level is a multiple of 10 from 0 to 100 and the
      charge current one of the listed amperages, without "max". */
  lemma UpdateProfileSchemaMeaning(call: map<string, Value>)
    ensures Valid(UpdateProfileSchema, call) <==> UpdateProfileOk(call)
  {
    ValidSplit(ProfileFields, ProfileChargeFields, call);
    if "profile_id" in call { ProfileNumberChecks(call["profile_id"]); }
    var s := ProfileFields;
    ValidMeansNoViolation(s, call);
    assert !Violated(s[0], call) <==> "device_id" in call && IsDeviceId(call["device_id"]);
    assert !Violated(s[1], call) <==> "profile_id" in call && IsCount(call["profile_id"]);
    assert !Violated(s[2], call) <==> "profile_name" in call && call["profile_name"].VStr?;
    assert !Violated(s[3], call) <==> OptionalOk(call, "charging", IsBool);
    assert !Violated(s[4], call) <==> OptionalOk(call, "climatisation", IsBool);
    ProfileChargeFieldsMeaning(call);
  }

  lemma ProfileChargeFieldsMeaning(call: map<string, Value>)
    ensures Valid(ProfileChargeFields, call) <==>
      && OptionalOk(call, "target_level", IsChargeLevel)
      && OptionalOk(call, "charge_max_current", IsCurrent)
      && OptionalOk(call, "night_rate", IsBool)
      && OptionalOk(call, "night_rate_start", IsString)
      && OptionalOk(call, "night_rate_end", IsString)
  {
    var s := ProfileChargeFields;
    ValidMeansNoViolation(s, call);
    if "target_level" in call { ChargeLevelsMeaning(call["target_level"]); }
    if "charge_max_current" in call { CurrentsMeaning(call["charge_max_current"]); }
    assert !Violated(s[0], call) <==> OptionalOk(call, "target_level", IsChargeLevel);
    assert !Violated(s[1], call) <==> OptionalOk(call, "charge_max_current", IsCurrent);
    assert !Violated(s[2], call) <==> OptionalOk(call, "night_rate", IsBool);
    assert !Violated(s[3], call) <==> OptionalOk(call, "night_rate_start", IsString);
    assert !Violated(s[4], call) <==> OptionalOk(call, "night_rate_end", IsString);
  }

  /** A schema made of two parts accepts a call when both parts do. */
  lemma ValidSplit(a: seq<Field>, b: seq<Field>, call: map<string, Value>)
    ensures Valid(a + b, call) <==> Valid(a, call) && Valid(b, call)
  {
    ValidMeansNoViolation(a + b, call);
    ValidMeansNoViolation(a, call);
    ValidMeansNoViolation(b, call);
    assert forall i :: 0 <= i < |a| ==> (a + b)[i] == a[i];
    assert forall i :: 0 <= i < |b| ==> (a + b)[|a| + i] == b[i];
  }

  /** A call missing a required field is rejected, whatever else it holds. */
  lemma MissingRequiredFieldRejected(schema: seq<Field>, call: map<string, Value>, i: nat)
    requires i < |schema| && schema[i].required && schema[i].key !in call
    ensures !Valid(schema, call)
    ensures schema[i].key in Violations(schema, call)
  {
  }

  /** Keys the schema does not declare are neither checked nor rejected. */
  lemma ExtraKeysIgnored(schema: seq<Field>, call: map<string, Value>, key: string, v: Value)
    requires forall i :: 0 <= i < |schema| ==> schema[i].key != key
    ensures Violations(schema, call[key := v]) == Violations(schema, call)
  {
  }

  /** "max" is a valid charger current but not a valid profile charge current. */
  lemma MaxOnlyForChargerCurrent(call: map<string, Value>)
    requires UpdateProfileOk(call)
    ensures Valid(ChargerMaxCurrentSchema, map["max_current" := VStr("max")])
    ensures !Valid(UpdateProfileSchema, call["charge_max_current" := VStr("max")])
  {
    ChargerMaxCurrentSchemaMeaning(map["max_current" := VStr("max")]);
    UpdateProfileSchemaMeaning(call["charge_max_current" := VStr("max")]);
  }

  const SomeDeviceId := VStr("0123456789abcdef0123456789abcdef")

  /** As written, the schedule schema accepts any non-negative charging
      profile, 0 and 11 included. */
  lemma ChargingProfileUnbounded(n: nat)
    ensures Valid(UpdateScheduleSchema,
                  map["device_id" := SomeDeviceId, "timer_id" := VInt(1), "charging_profile" := VInt(n)])
  {
    UpdateScheduleSchemaMeaning(map["device_id" := SomeDeviceId, "timer_id" := VInt(1), "charging_profile" := VInt(n)]);
  }

  /** As written, the profile schema accepts any non-negative profile id,
      0 and 11 included. */
  lemma ProfileIdUnbounded(n: nat)
    ensures Valid(UpdateProfileSchema,
                  map["device_id" := SomeDeviceId, "profile_id" := VInt(n), "profile_name" := VStr("p")])
  {
    UpdateProfileSchemaMeaning(map["device_id" := SomeDeviceId, "profile_id" := VInt(n), "profile_name" := VStr("p")]);
  }

  /** Replacing one field by a stricter one on the same key accepts exactly
      the calls the original schema accepts that also pass the new field. */
  lemma TightenedField(schema: seq<Field>, i: nat, f: Field, call: map<string, Value>)
    requires i < |schema|
    requires !Violated(f, call) ==> !Violated(schema[i], call)
    ensures Valid(schema[i := f], call) <==> Valid(schema, call) && !Violated(f, call)
  {
    var t := schema[i := f];
    ValidMeansNoViolation(schema, call);
    ValidMeansNoViolation(t, call);
    assert t[i] == f;
    assert forall j :: 0 <= j < |schema| && j != i ==> t[j] == schema[j];
  }

  /** With the intended bound, the schedule schema accepts exactly the calls
      the written schema accepts whose charging profile, if given, is 1..10. */
  lemma IntendedChargingProfileBounded(call: map<string, Value>)
    ensures Valid(IntendedUpdateScheduleSchema, call)
        <==> UpdateScheduleOk(call) && OptionalOk(call, "charging_profile", IsProfileNumber)
    ensures !Valid(IntendedUpdateScheduleSchema, call["charging_profile" := VInt(11)])
  {
    var f := IntendedChargingProfile;
    if "charging_profile" in call { ProfileNumberChecks(call["charging_profile"]); }
    TightenedField(UpdateScheduleSchema, 2, f, call);
    UpdateScheduleSchemaMeaning(call);
    var bad := call["charging_profile" := VInt(11)];
    assert Violated(f, bad);
    TightenedField(UpdateScheduleSchema, 2, f, bad);
  }

  /** With the intended bound, the profile schema accepts exactly the calls
      the written schema accepts whose profile id is 1..10. */
  lemma IntendedProfileIdBounded(call: map<string, Value>)
    ensures Valid(IntendedUpdateProfileSchema, call)
        <==> UpdateProfileOk(call) && IsProfileNumber(call["profile_id"])
    ensures !Valid(IntendedUpdateProfileSchema, call["profile_id" := VInt(11)])
  {
    var f := IntendedProfileId;
    if "profile_id" in call { ProfileNumberChecks(call["profile_id"]); }
    TightenedField(UpdateProfileSchema, 1, f, call);
    UpdateProfileSchemaMeaning(call);
    var bad := call["profile_id" := VInt(11)];
    assert Violated(f, bad);
    TightenedField(UpdateProfileSchema, 1, f, bad);
  }
}

=== FILE: setup.dfy ===
/** Entry setup and unload: the resource filter that decides which
    instruments become entities, the order of the setup steps and their
    failure outcomes, and the keep/drop decision of an unload. `components`
    is the integration's map from instrument component to platform. */
module Setup {
  import opened Common
  import opened Values
  import opened Records
  import opened Config
  import opened VolkswagenCoordinator
  import opened DataHolder

  predicate OccursAt(needle: string, haystack: string, i: int) {
    0 <= i <= |haystack| - |needle| && haystack[i..i + |needle|] == needle
  }

  /** Python's `needle in haystack` on strings. */
  predicate IsSubstring(needle: string, haystack: string) {
    exists i :: 0 <= i <= |haystack| && OccursAt(needle, haystack, i)
  }

  /** Whether the `resources` value (absent, or a value of any type) supports
      Python's `in` test. */
  predicate ResourcesTestable(resources: Option<Value>) {
    resources.None? || resources.value.VList? || resources.value.VDict? || resources.value.VStr?
  }

  /** `is_enabled`: `attr in data.get("resources", [attr])`. Without a
      resource list every attribute is enabled; a list or map is searched, a
      string is searched for a substring, and other values raise. */
  function IsEnabled(resources: Option<Value>, attr: string): (r: Result<bool>)
    ensures r.Raise? <==> !ResourcesTestable(resources)
    ensures resources.None? ==> r == Ok(true)
    ensures resources.Some? && resources.value.VList? ==>
      (r == Ok(true) <==> VStr(attr) in resources.value.items)
    ensures resources.Some? && resources.value.VDict? ==>
      (r == Ok(true) <==> attr in resources.value.entries)
    ensures resources.Some? && resources.value.VStr? ==> r == Ok(IsSubstring(attr, resources.value.s))
  {
    match resources
    case None => Ok(true)
    case Some(VList(items)) => Ok(InList(VStr(attr), items))
    case Some(VDict(entries)) => Ok(attr in entries)
    case Some(VStr(s)) => Ok(IsSubstring(attr, s))
    case Some(_) => Raise(TypeError("argument is not iterable"))
  }

  /** Whether setup registers an instrument as an entity. */
  predicate Selected(x: Instrument, components: map<string, string>, resources: Option<Value>) {
    x.component in components && IsEnabled(resources, x.slugAttr) == Ok(true)
  }

  /** The outcome of the registration loop: the registered instruments in
      snapshot order and the platforms they need. */
  datatype Registration = Registration(registered: seq<Instrument>, platforms: set<string>)

  /** The registration loop of `async_setup_entry`. The resource test runs
      only for instruments of a known component, so it raises exactly when
      such an instrument exists and the resource value is not testable. */
  function Register(xs: seq<Instrument>, components: map<string, string>, resources: Option<Value>): (r: Result<Registration>)
    ensures r.Raise? <==>
      !ResourcesTestable(resources) && exists i :: 0 <= i < |xs| && xs[i].component in components
    ensures r.Ok? ==> forall x :: x in r.value.registered <==> x in xs && Selected(x, components, resources)
    ensures r.Ok? ==> |r.value.registered| <= |xs|
    ensures r.Ok? ==>
      r.value.platforms == set x | x in r.value.registered && x.component in components :: components[x.component]
  {
    if xs == [] then Ok(Registration([], {}))
    else
      var x := xs[0];
      if x.component !in components then Register(xs[1..], components, resources)
      else match IsEnabled(resources, x.slugAttr)
        case Raise(err) => Raise(err)
        case Ok(enabled) =>
          match Register(xs[1..], components, resources)
          case Raise(err) => Raise(err)
          case Ok(rest) =>
            if enabled then Ok(Registration([x] + rest.registered, {components[x.component]} + rest.platforms))
            else Ok(rest)
  }

  /** The resource value `is_enabled` tests against, if the entry has one. */
  function ResourcesOf(entry: ConfigEntry): Option<Value> {
    if ResourcesKey in entry.data then Some(entry.data[ResourcesKey]) else None
  }

  /** How `async_setup_entry` ends: an exception, a re-authentication request
      after a failed login, "not ready" after a failed first refresh, or the
      entry set up with its refresh interval, coordinator and data holder. */
  datatype SetupOutcome =
    | SetupRaised(error: PyError)
    | ReauthRequested
    | NotReady
    | Ready(intervalMinutes: int, coordinator: Coordinator, data: VolkswagenData)

  /** `async_setup_entry`: choose the refresh interval, build the coordinator,
      log in, run the first refresh, build the data holder and register the
      enabled instruments of the snapshot, collecting their platforms. The
      client's answers are inputs: `login` for the login, `fetched` and `call`
      for the first refresh, `dashboard` for the instruments built from it. */
  function SetupEntry(entry: ConfigEntry, components: map<string, string>,
                      defaultScanMinutes: int, defaultReportInterval: int,
                      login: Attempt, fetched: Option<seq<Vehicle>>, call: ReportCall,
                      dashboard: seq<Instrument>): (r: SetupOutcome)
    ensures UpdateIntervalMinutes(entry.options, defaultScanMinutes).Raise? ==>
      r == SetupRaised(UpdateIntervalMinutes(entry.options, defaultScanMinutes).error)
    ensures UpdateIntervalMinutes(entry.options, defaultScanMinutes).Ok? && NewCoordinator(entry).Raise? ==>
      r == SetupRaised(NewCoordinator(entry).error)
    ensures
      (&& UpdateIntervalMinutes(entry.options, defaultScanMinutes).Ok? && NewCoordinator(entry).Ok?
       && login == Raised) ==>
      r == SetupRaised(ExternalError)
    ensures r == ReauthRequested <==>
      UpdateIntervalMinutes(entry.options, defaultScanMinutes).Ok? && NewCoordinator(entry).Ok? && login == Failed
    ensures
      (&& UpdateIntervalMinutes(entry.options, defaultScanMinutes).Ok? && NewCoordinator(entry).Ok?
       && login == Succeeded) ==>
      var refreshed := Refresh(NewCoordinator(entry).value.(loggedIn := true), entry, fetched,
                               defaultReportInterval, call, dashboard);
      && (!refreshed.lastUpdateSuccess ==> r == NotReady)
      && (refreshed.lastUpdateSuccess && NewData(entry.data, Some(refreshed)).Raise? ==>
            r == SetupRaised(NewData(entry.data, Some(refreshed)).error))
      && (&& refreshed.lastUpdateSuccess && NewData(entry.data, Some(refreshed)).Ok?
          && Register(refreshed.data, components, ResourcesOf(entry)).Raise? ==>
            r == SetupRaised(Register(refreshed.data, components, ResourcesOf(entry)).error))
      && (&& refreshed.lastUpdateSuccess && NewData(entry.data, Some(refreshed)).Ok?
          && Register(refreshed.data, components, ResourcesOf(entry)).Ok? ==>
            r.Ready?)
    ensures r == NotReady ==>
      && login == Succeeded && NewCoordinator(entry).Ok?
      && (|| SelectVehicle(NewCoordinator(entry).value.vin, fetched).None?
          || (ReportEnabled(entry.options) && ReportInterval(entry.options, defaultReportInterval).Raise?))
    ensures r.Ready? ==>
      && login == Succeeded
      && UpdateIntervalMinutes(entry.options, defaultScanMinutes) == Ok(r.intervalMinutes)
      && r.coordinator.loggedIn && r.coordinator.lastUpdateSuccess && r.coordinator.data == dashboard
      && r.data.coordinator == Some(r.coordinator)
      && NewData(entry.data, Some(r.coordinator)) == Ok(r.data.(instruments := []))
    ensures r.Ready? ==>
      r.coordinator == Refresh(NewCoordinator(entry).value.(loggedIn := true), entry, fetched,
                               defaultReportInterval, call, dashboard).(platforms := r.coordinator.platforms)
    ensures r.Ready? ==>
      forall x :: x in r.data.instruments <==> x in dashboard && Selected(x, components, ResourcesOf(entry))
    ensures r.Ready? ==>
      r.coordinator.platforms ==
        set x | x in r.data.instruments && x.component in components :: components[x.component]
  {
    match UpdateIntervalMinutes(entry.options, defaultScanMinutes)
    case Raise(err) => SetupRaised(err)
    case Ok(interval) =>
      match NewCoordinator(entry)
      case Raise(err) => SetupRaised(err)
      case Ok(created) =>
        match Login(created, login)
        case Raise(err) => SetupRaised(err)
        case Ok((false, _)) => ReauthRequested
        case Ok((true, session)) =>
          var refreshed := Refresh(session, entry, fetched, defaultReportInterval, call, dashboard);
          if !refreshed.lastUpdateSuccess then NotReady
          else match NewData(entry.data, Some(refreshed))
            case Raise(err) => SetupRaised(err)
            case Ok(holder) =>
              match Register(refreshed.data, components, ResourcesOf(entry))
              case Raise(err) => SetupRaised(err)
              case Ok(reg) =>
                var coordinator := refreshed.(platforms := refreshed.platforms + reg.platforms);
                Ready(interval, coordinator, holder.(instruments := reg.registered, coordinator := Some(coordinator)))
  }

  /** With report requests disabled, or a report interval above one day,
      setup leaves the report timestamp unset, so `NoReportEverAboveOneDay` applies to the coordinator it
      returns. */
  lemma SetupLeavesReportUnset(entry: ConfigEntry, components: map<string, string>,
                               defaultScanMinutes: int, defaultReportInterval: int,
                               login: Attempt, fetched: Option<seq<Vehicle>>, call: ReportCall,
                               dashboard: seq<Instrument>)
    ensures var r := SetupEntry(entry, components, defaultScanMinutes, defaultReportInterval,
                                login, fetched, call, dashboard);
      (&& r.Ready?
       && (|| !ReportEnabled(entry.options)
           || (ReportInterval(entry.options, defaultReportInterval).Ok? ==>
                 ReportInterval(entry.options, defaultReportInterval).value > 1))) ==>
        r.coordinator.reportLastUpdated.None?
  {
  }

  /** `async_unload_coordinator`: unload every platform of `components` that
      the coordinator set up (`unloaded` says whether each unload succeeded);
      the entry is dropped from the loaded entries exactly when all of them
      succeeded, which holds vacuously when there are none. */
  method UnloadCoordinator(loaded: map<string, VolkswagenData>, entryId: string,
                           components: map<string, string>, unloaded: string -> bool)
    returns (r: Result<(bool, map<string, VolkswagenData>)>)
    ensures entryId !in loaded ==> r == Raise(KeyError(entryId))
    ensures r.Raise? <==> entryId !in loaded || loaded[entryId].coordinator.None?
    ensures r.Ok? ==>
      (r.value.0 <==> forall p :: p in components && p in loaded[entryId].coordinator.value.platforms ==> unloaded(p))
    ensures r.Ok? ==> r.value.1 == (if r.value.0 then loaded - {entryId} else loaded)
  {
    if entryId !in loaded {
      return Raise(KeyError(entryId));
    }
    if loaded[entryId].coordinator.None? {
      return Raise(AttributeError("platforms"));
    }
    var platforms := loaded[entryId].coordinator.value.platforms;
    var pending := components.Keys;
    var all := true;
    while pending != {}
      invariant pending <= components.Keys
      invariant all <==> forall p :: p in components && p !in pending && p in platforms ==> unloaded(p)
      decreases pending
    {
      var p :| p in pending;
      if p in platforms && !unloaded(p) {
        all := false;
      }
      pending := pending - {p};
    }
    if all {
      r := Ok((true, loaded - {entryId}));
    } else {
      r := Ok((false, loaded));
    }
  }
}

=== FILE: text.dfy ===
/** Case mapping of identifiers. Vehicle identification numbers are ASCII, so
    only the ASCII letters are mapped. */
module Text {

  function UpperChar(c: char): char {
    if 'a' <= c <= 'z' then (c as int - 32) as char else c
  }

  function LowerChar(c: char): char {
    if 'A' <= c <= 'Z' then (c as int + 32) as char else c
  }

  /** Python's `str.upper()` on ASCII text. */
  function Upper(s: string): (r: string)
    ensures |r| == |s|
    ensures forall i :: 0 <= i < |s| ==> r[i] == UpperChar(s[i])
  {
    seq(|s|, i requires 0 <= i < |s| => UpperChar(s[i]))
  }

  /** Python's `str.lower()` on ASCII text. */
  function Lower(s: string): (r: string)
    ensures |r| == |s|
    ensures forall i :: 0 <= i < |s| ==> r[i] == LowerChar(s[i])
  {
    seq(|s|, i requires 0 <= i < |s| => LowerChar(s[i]))
  }
}

=== FILE: values.dfy ===
/** The dynamically typed values found in configuration maps, service calls and
    instrument attribute maps, with the Python semantics the integration relies
    on: truthiness, `==` between booleans and integers, and `dict.get`. */
module Values {

  datatype Value =
    | VNone
    | VBool(b: bool)
    | VInt(i: int)
    | VStr(s: string)
    | VList(items: seq<Value>)
    | VDict(entries: map<string, Value>)

  /** Python truthiness: `None`, `False`, `0` and empty containers are false. */
  predicate Truthy(v: Value) {
    match v
    case VNone => false
    case VBool(b) => b
    case VInt(i) => i != 0
    case VStr(s) => |s| > 0
    case VList(items) => |items| > 0
    case VDict(entries) => |entries| > 0
  }

  /** Python `==` on the values compared here: a boolean equals the integer
      0 or 1 it stands for; otherwise values are equal when identical. */
  predicate PyEq(a: Value, b: Value) {
    match (a, b)
    case (VBool(x), VInt(n)) => n == (if x then 1 else 0)
    case (VInt(n), VBool(x)) => n == (if x then 1 else 0)
    case _ => a == b
  }

  /** Python `value in list`, which compares with `==`. */
  predicate InList(v: Value, allowed: seq<Value>) {
    exists a :: a in allowed && PyEq(v, a)
  }

  /** Python `d.get(key, default)`. */
  function Get(d: map<string, Value>, key: string, default: Value): (r: Value)
    ensures key in d ==> r == d[key]
    ensures key !in d ==> r == default
  {
    if key in d then d[key] else default
  }
}
